=== FILE: README.md ===
# Camp records service: a Dafny model

The service keeps three tables for a summer camp (activities, campers, and the
signups joining them) and exposes CRUD-style HTTP handlers over campers and a
read-only listing of activities. This project models its core:

- the field validators that run when a camper's `name` or `age`, or a signup's
  `time`, is assigned (`Models.ValidateName`, `Models.ValidateAge`,
  `Models.ValidateTime`), and the non-null `name` column;
- the default serialisation of each entity (its `serialize_only` field set) and
  the detailed camper view, as a projection of the instance's attributes
  (`Models.ToDict` over `Models.CamperAttributes` and friends);
- the `Activites`, `Campers` and `CamperByID` handlers as pure functions from a
  database (`Store.Db`: a map from primary key to row per table) and a decoded
  request body (`App.Payload`) to a status, a JSON body and the database after
  the request (`App.Reply`). A request that raises before its commit returns the
  database it was given.

Files: `wrappers.dfy` (Option and Result), `models.dfy` (entities, validators,
serialisation), `store.dfy` (tables, listing order, new primary keys), `app.dfy`
(handlers and the reference predicates they are proved against),
`properties.dfy` (lemmas that relate several calls).

Three behaviours of the code worth stating:
- a camper's age is optional: the age rule runs only when an age is assigned, so
  a camper created without one has a null age;
- the default serialisation is the `serialize_only` set, which drops the
  timestamp columns as well as the relationships;
- DELETE answers 404 for any failure, including an absent id, and nothing in the
  code rejects deleting a camper that still has signups.

## Model

| member | source | states |
|---|---|---|
| Models.ValidateName | server/models.py:56-60 | a name is accepted exactly when it is present and non-empty, and is then returned unchanged; otherwise the error is "Camper must has a name." |
| Models.ValidateAge | server/models.py:62-66 | an age is accepted exactly when 8 <= age <= 18, and is then returned unchanged; otherwise the error is the age message |
| Models.ValidateTime | server/models.py:97-101 | a signup hour is accepted exactly when 0 <= time <= 23, and is then returned unchanged; otherwise the error is the time message |
| Properties.AgeBoundaries | server/models.py:62-66 | 7 and 19 are refused, 8 and 18 are accepted as themselves |
| Properties.TimeBoundaries | server/models.py:97-101 | -1 and 24 are refused, 0 and 23 are accepted as themselves |
| Properties.NameExamples | server/models.py:56-60 | a missing name and the empty name are both refused with the name message; "Alex" is accepted as "Alex" |
| Properties.ValidatorsIdempotent | server/models.py:56-101 | validating an accepted name, age or time again accepts it again with the same value |
| App.AssignName | server/models.py:56-60 | assigning a JSON value to name succeeds exactly for a non-empty string, which is what gets stored |
| App.AssignAge | server/models.py:62-66 | assigning a JSON value to age succeeds exactly for an integer from 8 to 18, which is what gets stored |
| App.Construct | server/app.py:44 | the constructor succeeds exactly when every key is name or age and both pass validation, storing the given values and leaving an absent one null; an unknown key is reported first, then a refused name |
| App.Assign | server/app.py:65-66 | the setattr loop succeeds exactly when the given name and age pass validation, and then yields the camper with those fields overwritten and the others kept |
| Models.ToDict | server/app.py:56 | restricted serialisation keeps exactly the named attributes the instance has, each with its value |
| Properties.PostWithoutNameHitsNotNull | server/models.py:44 | a body with no name passes every validator, yet the row is refused by the non-null name column with 400 and no change |
| Properties.CamperDictFields | server/models.py:53 | the default camper dict has exactly the keys id, name, age; no timestamp and no relationship |
| Properties.ActivityDictFields | server/models.py:34 | the default activity dict has exactly the keys id, name, difficulty; no timestamp and no relationship |
| Properties.SignupDictFields | server/models.py:94 | the default signup dict has exactly the keys id, time, camper_id, activity_id; no timestamp and no relationship |
| Properties.CamperDictRoundTrip | server/models.py:43-53 | reading the default camper dict back yields the same key, name and age |
| Store.NextId | server/models.py:43 | the key given to an inserted camper is not in use and exceeds every key in use (1 in an empty table) |
| Store.SortedIds | server/app.py:39 | a key set listed as a sequence holds every key exactly once, in ascending order |
| Store.Rows | server/app.py:39 | a table listed as rows has one row per key, each carrying the stored value, in ascending key order |
| App.GetActivities | server/app.py:31-33 | status 200, the database unchanged, one entry per activity, each entry that activity's default dict with exactly the fields id, name, difficulty, and no two entries with the same id |
| App.GetCampers | server/app.py:38-40 | status 200, the database unchanged, one entry per camper, each entry that camper's default dict with exactly the fields id, name, age, and no two entries with the same id |
| Properties.FieldSetsOmitTimestamps | server/models.py:34-94 | none of the three serialize_only sets names created_at or updated_at |
| Properties.CampersListOmitsTimestamps | server/app.py:38-40 | no entry of the camper listing carries created_at or updated_at |
| App.PostCamper | server/app.py:41-49 | 201 exactly when the body is an object with only name and age, a non-empty string name and an in-range integer age if any; then the camper is stored under a key not in use, every other row unchanged, and returned with that key; otherwise 400 with an error body and the database unchanged |
| Properties.PostRejectsAgeOutOfRange | server/app.py:41-49 | an integer age outside 8..18 gives 400 and leaves the database unchanged |
| Properties.PostRejectsFalsyName | server/app.py:41-49 | a null or empty name gives 400 and leaves the database unchanged |
| Properties.PostRejectsUnknownKey | server/app.py:44 | any key other than name and age gives 400 with the keyword error and the database unchanged |
| Properties.PostValidatorMessages | server/app.py:48-49 | an empty name reports the name message; a good name with an out-of-range age reports the age message |
| Properties.PostWithoutAge | server/app.py:44 | a body with only a non-empty name is created with a null age |
| Properties.PostExample | server/app.py:41-47 | POST {"name": "Alex", "age": 12} answers 201 with exactly id, name "Alex" and age 12 |
| Properties.PostThenGet | server/app.py:41-58 | after a 201, GET on the returned key answers 200 with the posted name, and the table grew by exactly that row |
| App.GetCamper | server/app.py:53-58 | the database is unchanged; 200 exactly when the id is stored, with the detailed fields id, name, age, signups carrying the stored values; otherwise 404 with "Camper not found" |
| App.PatchCamper | server/app.py:59-70 | an absent id gives 404 "404: Camper not found"; 200 exactly when the id is stored and every given name and age passes validation, and then only the given fields of that camper are overwritten and the detailed view returned; a refused value gives 400 with nothing committed |
| Properties.PatchTouchesOnlyGivenKeys | server/app.py:64-68 | a committed PATCH keeps every other camper and every field it does not name, and stores each field it names as given |
| Properties.PatchAgeExample | server/app.py:59-68 | PATCH {"age": 15} on a stored camper answers 200 with age 15 and the name unchanged |
| Properties.PatchIgnoresUnknownKeys | server/app.py:65-66 | PATCH answers and commits as if names other than name and age were absent from the body |
| App.DeleteCamper | server/app.py:71-78 | 204 with an empty body exactly when the id is stored, removing that key and nothing else; otherwise 404 "404: Camper not found" with the database unchanged |
| Properties.DeleteThenGet | server/app.py:53-78 | after DELETE on a key, GET on that key answers 404 "Camper not found" |
| Properties.WritesPreserveValidity | server/app.py:41-78 | if every stored camper has a non-empty name and an age in 8..18 or none, POST, PATCH and DELETE keep it so |
| Properties.RejectionsCommitNothing | server/app.py:41-78 | in the model every error answer of POST, PATCH or DELETE leaves the database unchanged |
| App.PostCamperAsWritten | server/app.py:41-49 | as written, a body that also names to_dict and is otherwise acceptable commits the same camper POST would create, yet answers 400; a body naming to_dict whose other fields are refused answers 400 with the database unchanged; a body without to_dict behaves as App.PostCamper |
| App.PatchCamperAsWritten | server/app.py:59-70 | as written, an acceptable body that also names to_dict on a stored camper commits the same change PATCH would make, yet answers 400; on an absent id or with a refused value it behaves as App.PatchCamper (404, or 400 with nothing committed), as does every body without to_dict |
| Properties.PostToDictCommitsThenRejects | server/app.py:44-49 | as written, POST {"name": "A", "to_dict": 0} answers 400 while the table grows by one row |
| Properties.PatchToDictCommitsThenRejects | server/app.py:64-70 | as written, PATCH {"name": "B", "to_dict": 0} answers 400 while the camper is renamed to "B" |

## Left out

- Flask and flask_restful routing, JSON encoding of responses, the `GET /` route returning "Home", and starting the server: framework I/O.
- The `<int:id>` route converter, which only admits non-negative integers: the handlers take any integer key.
- The database session, commit and rollback, migrations and the database URI settings: a write is a map update that either commits or leaves the database as given.
- The `created_at` and `updated_at` columns: database-clock values. They appear in an instance's attributes only as an uninterpreted value, so that the projections can be shown to drop them.
- The association proxies and relationship back-population: ORM wiring with no stated behaviour.
- The nested shape of the `signups.activity` part of the detailed camper view: it comes from a serialisation library that is not part of this model; the view carries a `signups` key with an uninterpreted value.
- The signups table is not modelled. GET and PATCH on one camper read that camper's signups to build the nested view, which the model carries as an uninterpreted value. What DELETE does to a deleted camper's signups depends on ORM and SQLite foreign-key defaults outside the code. Signups themselves are modelled only through their validator and serialisation.
- Request keys other than name and age: the constructor refuses a key only when the class has no attribute of that name, and PATCH assigns every key. The model treats every other key as unknown: POST refuses it before committing and PATCH ignores it. The code instead assigns mapped attributes (id, created_at, updated_at, signups, activity) and class attributes (query, serialize_only, validate_name, to_dict, and whatever the base classes define). The base classes are not part of this model. The `to_dict` case alone is modelled as written; see Findings.
- Properties.PostRejectsUnknownKey: its key ranges over every name except name and age. The code accepts a key that is an attribute of the class, such as `query` (201) or `to_dict` (committed, then 400).
- Properties.PatchIgnoresUnknownKeys: in the code, a key naming a class or mapped attribute is assigned rather than ignored. A `to_dict` key commits and then answers 400, and a `__class__` key answers 400.
- Dynamic typing: the model's name is a string or null and its age an integer or null. Any other JSON value is refused with 400 and a generic message. That is what the code does for a string, null, array or object age, and for an array or object name: such a name passes the truthiness check, but the database driver cannot store it, so the commit fails with nothing stored. The code differs for scalars. The name check is Python truthiness, so a truthy non-string scalar name (5, true) passes and is stored, and a zero or false name reports the name message. The age check is a numeric comparison, so a float age from 8 to 18 (12.5) passes and is stored, and a boolean counts as 0 or 1.
- App.AssignName: refuses truthy non-string scalar names (5, true), which the code's validator accepts and the code stores.
- App.AssignAge: refuses float ages from 8 to 18, which the code's validator accepts and the code stores.
- App.PostCamper: its 201-exactly-when excludes truthy non-string scalar names (5, true) and float ages from 8 to 18, which the code stores with 201. It also excludes every key that is a class or mapped attribute other than name and age. In the code, some of these give 201 (`query`). Others raise before or at the commit, answering 400 with nothing stored: `__class__`, an `id` already in use, a non-list `signups`. `to_dict` is stored and then answered with 400; see Findings.
- App.PatchCamper: its 200-exactly-when excludes truthy non-string scalar names (5, true) and float ages from 8 to 18, which the code commits with 200. A key naming a class or mapped attribute is ignored by the model. In the code, such a key is assigned: a `to_dict` key commits and then answers 400 (see Findings), and a `__class__` key answers 400.
- App.Construct: succeeds only for keys name and age, a string name and an integer age. `Camper(**data)` in the code also accepts any other class or mapped attribute as a key (`query`, `id`, `to_dict`, ...), a truthy non-string scalar name (5, true) and a float age from 8 to 18 (12.5). Some of those attribute keys raise when assigned (`__class__`, a non-list `signups`); the model refuses them all with the keyword error.
- App.Assign: ignores every key other than name and age and refuses a non-string name or a non-integer age. The setattr loop in the code assigns every key: it raises on a `__class__` key or a non-list `signups` value, which the model ignores, and it stores a truthy non-string scalar name (5, true) and a float age from 8 to 18 (12.5), which the model refuses.
- Error texts raised by the database or by Python (the non-null failure, an invalid keyword, a type error, an unparsable body) are fixed descriptive strings, not the exact wording of the libraries.
- Which error is reported when several fields of one body fail: the code assigns fields in the JSON key order, which a map does not keep; the model checks unknown keys, then name, then age.
- App.GetActivities: the order of the listing is fixed as ascending key; the code's query does not promise an order, so only the one-entry-per-row content is what the code guarantees.
- App.GetCampers: the same ascending-key order choice as for activities.
- Store.NextId: the code leaves the new key to the database; the model uses SQLite's usual rule (largest key plus one, 1 when empty), and the contracts rely only on the key being unused.
- Integer width: keys, ages and hours are unbounded integers; SQLite's 64-bit limit is not modelled.
- The `__repr__` methods: debugging text.

## Findings

| source | as written | input that shows it | evidently intended | confidence | as-written member | corrected member |
|---|---|---|---|---|---|---|
| server/app.py:44-49 | a body key is assigned as an instance attribute; `to_dict` shadows the serialiser method, the row is committed at line 46, and the call at line 47 raises into the 400 branch | POST {"name": "A", "to_dict": 0} | a 400 answer means nothing was stored | medium, not executed | App.PostCamperAsWritten | App.PostCamper |
| server/app.py:64-70 | every body key is assigned with `setattr`; a `to_dict` key shadows the serialiser method, the change is committed at line 67, and the call at line 68 raises into the 400 branch | PATCH {"name": "B", "to_dict": 0} on a stored camper | a 400 answer means nothing was committed | medium, not executed | App.PatchCamperAsWritten | App.PatchCamper |

The as-written members are exhibited by Properties.PostToDictCommitsThenRejects and Properties.PatchToDictCommitsThenRejects. In the corrected members, which the rest of the model uses, a `to_dict` key is refused before the commit by POST and ignored by PATCH. Properties.RejectionsCommitNothing proves that their error answers leave the database unchanged.

=== FILE: app.dfy ===
/**
  The HTTP handlers for activities and campers, as pure functions from the
  database and the request to a response and the database after the request.
  A handler that fails before committing returns the database it was given.
 */
module App {
  import opened Wrappers
  import opened Models
  import opened Store

  const Ok: int := 200
  const Created: int := 201
  const NoContent: int := 204
  const BadRequest: int := 400
  const NotFound: int := 404

  const CamperNotFound: string := "Camper not found"
  const PatchNotFound: string := "404: Camper not found"
  /** Texts of errors raised by the database or by Python itself; the model
      keeps their cause, not their exact wording. */
  const NotNullMessage: string := "NOT NULL constraint failed: campers.name"
  const KeywordMessage: string := "invalid keyword argument for Camper"
  const TypeMessage: string := "value of the wrong type for this attribute"
  const PayloadMessage: string := "request body is not a JSON object"

  /** The decoded JSON body of a request: an object, or anything else
      (invalid JSON, an array, a bare value) on which the handlers raise. */
  datatype Payload = Object(fields: map<string, Value>) | Malformed

  /** A JSON response body: one object, or a list of objects. */
  datatype Body = Record(fields: map<string, Value>) | Records(items: seq<map<string, Value>>)

  datatype Response = Response(status: int, body: Body)

  /** What a handler returns and the database it leaves behind. */
  datatype Reply = Reply(response: Response, db: Db)

  function ErrorBody(message: string): Body {
    Record(map["error" := Str(message)])
  }

  function Reject(db: Db, status: int, message: string): Reply {
    Reply(Response(status, ErrorBody(message)), db)
  }

  /** The attributes a request may assign. */
  const Writable: set<string> := {"name", "age"}

  /** Assigning a JSON value to `name` runs the name validator on it. */
  function AssignName(v: Value): (r: Result<string, string>)
    ensures r.Success? <==> v.Str? && !Falsy(Some(v.s))
    ensures r.Success? ==> v == Str(r.value)
  {
    match v
    case Null => ValidateName(None)
    case Str(s) => ValidateName(Some(s))
    case _ => Failure(TypeMessage)
  }

  /** Assigning a JSON value to `age` runs the age validator on it; comparing
      anything but an integer with 8 raises. */
  function AssignAge(v: Value): (r: Result<int, string>)
    ensures r.Success? <==> v.Int? && MinAge <= v.i <= MaxAge
    ensures r.Success? ==> v == Int(r.value)
  {
    match v
    case Int(a) => ValidateAge(a)
    case _ => Failure(TypeMessage)
  }

  /** `Camper(**fields)`: an unknown keyword raises, and so does a value its
      validator refuses; an attribute not given is left unset. */
  function Construct(fields: map<string, Value>): (r: Result<Camper, string>)
    ensures r.Success? <==> fields.Keys <= Writable && GoodName(fields) && GoodAge(fields)
    // keys are checked first, then the name, then the age
    ensures !(fields.Keys <= Writable) ==> r == Failure(KeywordMessage)
    ensures fields.Keys <= Writable && !GoodName(fields) ==> r == Failure(AssignName(fields["name"]).error)
    ensures r.Success? ==>
      && r.value.name == (if "name" in fields then Some(fields["name"].s) else None)
      && r.value.age == (if "age" in fields then Some(fields["age"].i) else None)
  {
    if !(fields.Keys <= Writable) then Failure(KeywordMessage)
    else if "name" in fields && AssignName(fields["name"]).Failure? then
      Failure(AssignName(fields["name"]).error)
    else if "age" in fields && AssignAge(fields["age"]).Failure? then
      Failure(AssignAge(fields["age"]).error)
    else
      Success(Camper(
        if "name" in fields then Some(AssignName(fields["name"]).value) else None,
        if "age" in fields then Some(AssignAge(fields["age"]).value) else None))
  }

  /** `setattr` for every field of a PATCH body: a modelled attribute is
      validated and overwritten, any other name lands on the Python object
      only and is never stored. */
  function Assign(c: Camper, fields: map<string, Value>): (r: Result<Camper, string>)
    ensures r.Success? <==> GoodName(fields) && GoodAge(fields)
    ensures r.Success? ==> r.value == Patched(c, fields)
  {
    if "name" in fields && AssignName(fields["name"]).Failure? then
      Failure(AssignName(fields["name"]).error)
    else if "age" in fields && AssignAge(fields["age"]).Failure? then
      Failure(AssignAge(fields["age"]).error)
    else
      Success(Camper(
        if "name" in fields then Some(AssignName(fields["name"]).value) else c.name,
        if "age" in fields then Some(AssignAge(fields["age"]).value) else c.age))
  }

  // ----- Reference definitions the handlers are proved against -----

  /** A field whose value its validator accepts. */
  predicate GoodName(fields: map<string, Value>) {
    "name" in fields ==> fields["name"].Str? && !Falsy(Some(fields["name"].s))
  }

  predicate GoodAge(fields: map<string, Value>) {
    "age" in fields ==> fields["age"].Int? && MinAge <= fields["age"].i <= MaxAge
  }

  /** A POST body that creates a camper: an object naming only modelled
      attributes, with a non-empty string name and, if given, an age in range. */
  predicate PostAccepted(p: Payload) {
    && p.Object?
    && p.fields.Keys <= {"name", "age"}
    && "name" in p.fields
    && GoodName(p.fields)
    && GoodAge(p.fields)
  }

  /** The camper an accepted POST body describes. */
  function Posted(fields: map<string, Value>): Camper
    requires "name" in fields && fields["name"].Str?
    requires GoodAge(fields)
  {
    Camper(Some(fields["name"].s), if "age" in fields then Some(fields["age"].i) else None)
  }

  /** A PATCH body that commits: an object whose name and age, where given, pass validation. */
  predicate PatchAccepted(p: Payload) {
    p.Object? && GoodName(p.fields) && GoodAge(p.fields)
  }

  /** The camper after an accepted PATCH: given fields overwritten, others kept. */
  function Patched(c: Camper, fields: map<string, Value>): Camper
    requires GoodName(fields) && GoodAge(fields)
  {
    Camper(
      if "name" in fields then Some(fields["name"].s) else c.name,
      if "age" in fields then Some(fields["age"].i) else c.age)
  }

  predicate IsError(b: Body) {
    b.Record? && b.fields.Keys == {"error"} && b.fields["error"].Str?
  }

  // ----- Handlers -----

  /** A table listed in query order, each row reduced by `view`, whose "id"
      field is the row's key. */
  function Listing<T>(table: map<int, T>, view: (int, T) -> map<string, Value>): (items: seq<map<string, Value>>)
    requires forall id :: id in table ==> "id" in view(id, table[id]) && view(id, table[id])["id"] == Int(id)
    ensures |items| == |table|
    ensures forall id :: id in table ==> view(id, table[id]) in items
    ensures forall i :: 0 <= i < |items| ==> exists id :: id in table && items[i] == view(id, table[id])
    ensures forall i :: 0 <= i < |items| ==> "id" in items[i]
    ensures forall i, j :: 0 <= i < j < |items| ==> items[i]["id"] != items[j]["id"]
  {
    Views(Rows(table), view)
  }

  function Views<T>(rows: seq<(int, T)>, view: (int, T) -> map<string, Value>): (items: seq<map<string, Value>>)
    ensures |items| == |rows|
    ensures forall i :: 0 <= i < |rows| ==> items[i] == view(rows[i].0, rows[i].1)
  {
    seq(|rows|, i requires 0 <= i < |rows| => view(rows[i].0, rows[i].1))
  }

  /** GET /activities: every activity, each reduced to its default fields. */
  function GetActivities(db: Db): (r: Reply)
    ensures r.db == db && r.response.status == Ok && r.response.body.Records?
    ensures |r.response.body.items| == |db.activities|
    ensures forall id :: id in db.activities ==> ActivityDict(id, db.activities[id]) in r.response.body.items
    ensures forall i :: 0 <= i < |r.response.body.items| ==>
      exists id :: id in db.activities && r.response.body.items[i] == ActivityDict(id, db.activities[id])
    ensures forall i :: 0 <= i < |r.response.body.items| ==> r.response.body.items[i].Keys == ActivityOnly
    ensures forall i, j :: 0 <= i < j < |r.response.body.items| ==>
      r.response.body.items[i]["id"] != r.response.body.items[j]["id"]
  {
    Reply(Response(Ok, Records(Listing(db.activities, ActivityDict))), db)
  }

  /** GET /campers: every camper, each reduced to its default fields. */
  function GetCampers(db: Db): (r: Reply)
    ensures r.db == db && r.response.status == Ok && r.response.body.Records?
    ensures |r.response.body.items| == |db.campers|
    ensures forall id :: id in db.campers ==> CamperDict(id, db.campers[id]) in r.response.body.items
    ensures forall i :: 0 <= i < |r.response.body.items| ==>
      exists id :: id in db.campers && r.response.body.items[i] == CamperDict(id, db.campers[id])
    ensures forall i :: 0 <= i < |r.response.body.items| ==> r.response.body.items[i].Keys == CamperOnly
    ensures forall i, j :: 0 <= i < j < |r.response.body.items| ==>
      r.response.body.items[i]["id"] != r.response.body.items[j]["id"]
  {
    Reply(Response(Ok, Records(Listing(db.campers, CamperDict))), db)
  }

  /** POST /campers: build a camper from the body, validate, insert under a fresh key. */
  function PostCamper(db: Db, p: Payload): (r: Reply)
    ensures r.response.status == Created <==> PostAccepted(p)
    ensures r.response.status != Created ==>
      r.response.status == BadRequest && IsError(r.response.body) && r.db == db
    ensures r.response.status == Created ==>
      && r.response.body.Record?
      && "id" in r.response.body.fields && r.response.body.fields["id"].Int?
      && var n := r.response.body.fields["id"].i;
         && n !in db.campers
         && r.db == db.(campers := db.campers[n := Posted(p.fields)])
         && r.response.body.fields == CamperDict(n, Posted(p.fields))
  {
    match p
    case Malformed => Reject(db, BadRequest, PayloadMessage)
    case Object(fields) =>
      match Construct(fields)
      case Failure(e) => Reject(db, BadRequest, e)
      case Success(c) =>
        if !Insertable(c) then Reject(db, BadRequest, NotNullMessage)
        else
          var n := NextId(db.campers.Keys);
          Reply(Response(Created, Record(CamperDict(n, c))), db.(campers := db.campers[n := c]))
  }

  /** GET /campers/{id}: the camper with its detailed fields, or 404. */
  function GetCamper(db: Db, id: int): (r: Reply)
    ensures r.db == db
    ensures r.response.status == Ok <==> id in db.campers
    ensures id in db.campers ==>
      && r.response.body.Record?
      && r.response.body.fields.Keys == CamperDetailOnly
      && r.response.body.fields["id"] == Int(id)
      && r.response.body.fields["name"] == StrValue(db.campers[id].name)
      && r.response.body.fields["age"] == IntValue(db.campers[id].age)
    ensures id !in db.campers ==>
      r.response.status == NotFound && r.response.body == ErrorBody(CamperNotFound)
  {
    if id in db.campers then
      Reply(Response(Ok, Record(CamperDetailDict(id, db.campers[id]))), db)
    else
      Reject(db, NotFound, CamperNotFound)
  }

  /** PATCH /campers/{id}: overwrite the given attributes of the camper and commit, or 404 / 400. */
  function PatchCamper(db: Db, id: int, p: Payload): (r: Reply)
    ensures id !in db.campers ==>
      r.response.status == NotFound && r.response.body == ErrorBody(PatchNotFound) && r.db == db
    ensures r.response.status == Ok <==> id in db.campers && PatchAccepted(p)
    ensures id in db.campers && !PatchAccepted(p) ==>
      r.response.status == BadRequest && IsError(r.response.body) && r.db == db
    ensures r.response.status == Ok ==>
      && var c := Patched(db.campers[id], p.fields);
         && r.db == db.(campers := db.campers[id := c])
         && r.response.body == Record(CamperDetailDict(id, c))
  {
    if id !in db.campers then Reject(db, NotFound, PatchNotFound)
    else
      match p
      case Malformed => Reject(db, BadRequest, PayloadMessage)
      case Object(fields) =>
        match Assign(db.campers[id], fields)
        case Failure(e) => Reject(db, BadRequest, e)
        case Success(c) =>
          Reply(Response(Ok, Record(CamperDetailDict(id, c))), db.(campers := db.campers[id := c]))
  }

  /** DELETE /campers/{id}: remove the camper and answer with an empty body, or 404. */
  function DeleteCamper(db: Db, id: int): (r: Reply)
    ensures r.db.activities == db.activities
    ensures r.response.status == NoContent <==> id in db.campers
    ensures id in db.campers ==>
      && r.response.body == Record(map[])
      && r.db.campers.Keys == db.campers.Keys - {id}
      && forall k :: k in r.db.campers ==> r.db.campers[k] == db.campers[k]
    ensures id !in db.campers ==>
      r.response.status == NotFound && r.response.body == ErrorBody(PatchNotFound) && r.db == db
  {
    if id in db.campers then
      Reply(Response(NoContent, Record(map[])), db.(campers := db.campers - {id}))
    else
      Reject(db, NotFound, PatchNotFound)
  }

  // ----- The handlers as written, for a body that names `to_dict` -----

  /** A class attribute a request key can shadow on the instance: the
      serialiser method both write handlers call after committing. A JSON
      value is never callable, so that call raises. */
  const SerialiserMethod: string := "to_dict"
  const NotCallableMessage: string := "to_dict is not callable"

  /** POST as written when the body may name `to_dict`: the constructor
      accepts that key, the row is committed, and only then does the
      serialisation raise, so the answer is 400 for a stored row. */
  function PostCamperAsWritten(db: Db, p: Payload): (r: Reply)
    ensures !(p.Object? && SerialiserMethod in p.fields) ==> r == PostCamper(db, p)
    ensures p.Object? && SerialiserMethod in p.fields && PostAccepted(Object(p.fields - {SerialiserMethod})) ==>
      && r.response.status == BadRequest
      && r.db == PostCamper(db, Object(p.fields - {SerialiserMethod})).db
      && r.db != db
    ensures p.Object? && SerialiserMethod in p.fields && !PostAccepted(Object(p.fields - {SerialiserMethod})) ==>
      r.response.status == BadRequest && IsError(r.response.body) && r.db == db
  {
    match p
    case Malformed => PostCamper(db, p)
    case Object(fields) =>
      if SerialiserMethod !in fields then PostCamper(db, p)
      else
        var committed := PostCamper(db, Object(fields - {SerialiserMethod}));
        if committed.response.status == Created then
          Reject(committed.db, BadRequest, NotCallableMessage)
        else
          committed
  }

  /** PATCH as written when the body may name `to_dict`: the assignments are
      committed, and only then does the serialisation raise. */
  function PatchCamperAsWritten(db: Db, id: int, p: Payload): (r: Reply)
    ensures !(id in db.campers && p.Object? && SerialiserMethod in p.fields && PatchAccepted(p)) ==>
      r == PatchCamper(db, id, p)
    ensures id in db.campers && p.Object? && SerialiserMethod in p.fields && PatchAccepted(p) ==>
      && r.response.status == BadRequest
      && r.db == PatchCamper(db, id, p).db
  {
    var committed := PatchCamper(db, id, p);
    if p.Object? && SerialiserMethod in p.fields && committed.response.status == Ok then
      Reject(committed.db, BadRequest, NotCallableMessage)
    else
      committed
  }
}

=== FILE: models.dfy ===
/**
  The three entities of the camp schema (activities, campers, signups), the
  field validators that run when a camper's name or age or a signup's time is
  assigned, and the default serialisation of each entity.
 */
module Models {
  import opened Wrappers

  /** A JSON value as it reaches an attribute or leaves in a response.
      `Other` stands for every value the model does not interpret: booleans,
      floats, arrays and objects in a request, and database timestamps or
      nested relationship lists in a serialised entity. */
  datatype Value = Null | Int(i: int) | Str(s: string) | Other

  /** A row of the `activities` table, without its id and timestamps. */
  datatype Activity = Activity(name: Option<string>, difficulty: Option<int>)

  /** A row of the `campers` table, without its id and timestamps. The name
      column is non-null; `None` here is a row the database refuses. */
  datatype Camper = Camper(name: Option<string>, age: Option<int>)

  /** A row of the `signups` table, without its id and timestamps. */
  datatype Signup = Signup(time: Option<int>, camperId: Option<int>, activityId: Option<int>)

  const MinAge: int := 8
  const MaxAge: int := 18
  const FirstHour: int := 0
  const LastHour: int := 23

  const NameMessage: string := "Camper must has a name."
  const AgeMessage: string := "Camper must be 8 to 18 years old!"
  const TimeMessage: string := "time must be between 0 to 23"

  /** Python's `not name` for a string-or-None value. */
  predicate Falsy(name: Option<string>) {
    name.None? || name.value == ""
  }

  /** The `name` validator: a falsy name raises; any other is stored unchanged. */
  function ValidateName(name: Option<string>): (r: Result<string, string>)
    ensures r.Success? <==> !Falsy(name)
    ensures r.Success? ==> name == Some(r.value)
    ensures r.Failure? ==> r.error == NameMessage
  {
    if Falsy(name) then Failure(NameMessage) else Success(name.value)
  }

  /** The `age` validator: an age below 8 or above 18 raises; any other is stored unchanged. */
  function ValidateAge(age: int): (r: Result<int, string>)
    ensures r.Success? <==> MinAge <= age <= MaxAge
    ensures r.Success? ==> r.value == age
    ensures r.Failure? ==> r.error == AgeMessage
  {
    if MinAge > age || age > MaxAge then Failure(AgeMessage) else Success(age)
  }

  /** The signup `time` validator: an hour below 0 or above 23 raises; any other is stored unchanged. */
  function ValidateTime(time: int): (r: Result<int, string>)
    ensures r.Success? <==> FirstHour <= time <= LastHour
    ensures r.Success? ==> r.value == time
    ensures r.Failure? ==> r.error == TimeMessage
  {
    if FirstHour > time || time > LastHour then Failure(TimeMessage) else Success(time)
  }

  /** The camper name column is declared non-null: a row without a name cannot be inserted. */
  predicate Insertable(c: Camper) {
    c.name.Some?
  }

  /** A camper every one of whose fields passed its validator when it was assigned. */
  predicate ValidCamper(c: Camper) {
    && !Falsy(c.name)
    && (c.age.Some? ==> MinAge <= c.age.value <= MaxAge)
  }

  // ----- Serialisation -----

  /** The `serialize_only` field sets: what the default `to_dict` of each entity emits. */
  const ActivityOnly: set<string> := {"id", "name", "difficulty"}
  const CamperOnly: set<string> := {"id", "name", "age"}
  const SignupOnly: set<string> := {"id", "time", "camper_id", "activity_id"}

  /** The fields of a camper's detailed view: the top-level names of
      `('id', 'name', 'age', 'signups.activity')`. */
  const CamperDetailOnly: set<string> := {"id", "name", "age", "signups"}

  /** Timestamp columns, filled from the database clock. */
  const Timestamps: set<string> := {"created_at", "updated_at"}

  function StrValue(o: Option<string>): Value {
    match o
    case None => Null
    case Some(s) => Str(s)
  }

  function IntValue(o: Option<int>): Value {
    match o
    case None => Null
    case Some(n) => Int(n)
  }

  /** Every attribute an Activity instance exposes to the serialiser; the
      timestamps and relationships are values the model does not interpret. */
  function ActivityAttributes(id: int, a: Activity): map<string, Value> {
    map[
      "id" := Int(id), "name" := StrValue(a.name), "difficulty" := IntValue(a.difficulty),
      "created_at" := Other, "updated_at" := Other,
      "signups" := Other, "campers" := Other
    ]
  }

  /** Every attribute a Camper instance exposes to the serialiser. */
  function CamperAttributes(id: int, c: Camper): map<string, Value> {
    map[
      "id" := Int(id), "name" := StrValue(c.name), "age" := IntValue(c.age),
      "created_at" := Other, "updated_at" := Other,
      "signups" := Other, "activity" := Other
    ]
  }

  /** Every attribute a Signup instance exposes to the serialiser. */
  function SignupAttributes(id: int, s: Signup): map<string, Value> {
    map[
      "id" := Int(id), "time" := IntValue(s.time),
      "camper_id" := IntValue(s.camperId), "activity_id" := IntValue(s.activityId),
      "created_at" := Other, "updated_at" := Other,
      "camper" := Other, "activity" := Other
    ]
  }

  /** Restricted serialisation: keep exactly the named attributes, each with its value. */
  function ToDict(attributes: map<string, Value>, only: set<string>): (d: map<string, Value>)
    ensures d.Keys == attributes.Keys * only
    ensures forall k :: k in d ==> d[k] == attributes[k]
  {
    map k | k in attributes && k in only :: attributes[k]
  }

  function ActivityDict(id: int, a: Activity): map<string, Value> {
    ToDict(ActivityAttributes(id, a), ActivityOnly)
  }

  function CamperDict(id: int, c: Camper): map<string, Value> {
    ToDict(CamperAttributes(id, c), CamperOnly)
  }

  function CamperDetailDict(id: int, c: Camper): map<string, Value> {
    ToDict(CamperAttributes(id, c), CamperDetailOnly)
  }

  function SignupDict(id: int, s: Signup): map<string, Value> {
    ToDict(SignupAttributes(id, s), SignupOnly)
  }

  function StrOption(v: Value): Option<string> {
    if v.Str? then Some(v.s) else None
  }

  function IntOption(v: Value): Option<int> {
    if v.Int? then Some(v.i) else None
  }

  /** Reads a camper back from its default serialisation. */
  function CamperFromDict(d: map<string, Value>): (r: Option<(int, Camper)>)
    ensures r.Some? ==> d.Keys >= CamperOnly && d["id"] == Int(r.value.0)
  {
    if "id" in d && d["id"].Int? && "name" in d && "age" in d then
      Some((d["id"].i, Camper(StrOption(d["name"]), IntOption(d["age"]))))
    else
      None
  }
}

=== FILE: properties.dfy ===
/**
  Properties relating several calls: validator boundaries and idempotence,
  what the default serialisation keeps and drops, the rejections of POST,
  the partial overwrite of PATCH, the store invariant the writes preserve,
  and DELETE followed by GET.
 */
module Properties {
  import opened Wrappers
  import opened Models
  import opened Store
  import opened App

  // ----- Validators -----

  /** The age limits are inclusive: 8 and 18 pass, 7 and 19 do not. */
  lemma AgeBoundaries()
    ensures ValidateAge(7).Failure? && ValidateAge(19).Failure?
    ensures ValidateAge(8) == Success(8) && ValidateAge(18) == Success(18)
  {
  }

  /** The hour limits are inclusive: 0 and 23 pass, -1 and 24 do not. */
  lemma TimeBoundaries()
    ensures ValidateTime(-1).Failure? && ValidateTime(24).Failure?
    ensures ValidateTime(0) == Success(0) && ValidateTime(23) == Success(23)
  {
  }

  /** Both falsy names are refused; a non-empty one comes back as given. */
  lemma NameExamples()
    ensures ValidateName(None) == Failure(NameMessage)
    ensures ValidateName(Some("")) == Failure(NameMessage)
    ensures ValidateName(Some("Alex")) == Success("Alex")
  {
  }

  /** Validating an accepted value again accepts it again, unchanged. */
  lemma ValidatorsIdempotent(name: Option<string>, age: int, time: int)
    ensures ValidateName(name).Success? ==> ValidateName(Some(ValidateName(name).value)) == ValidateName(name)
    ensures ValidateAge(age).Success? ==> ValidateAge(ValidateAge(age).value) == ValidateAge(age)
    ensures ValidateTime(time).Success? ==> ValidateTime(ValidateTime(time).value) == ValidateTime(time)
  {
  }

  // ----- Serialisation -----

  /** The default camper dict holds exactly id, name and age: no timestamps,
      no relationships. */
  lemma CamperDictFields(id: int, c: Camper)
    ensures CamperDict(id, c).Keys == {"id", "name", "age"}
    ensures CamperDict(id, c).Keys !! Timestamps
    ensures "signups" !in CamperDict(id, c) && "activity" !in CamperDict(id, c)
  {
  }

  lemma ActivityDictFields(id: int, a: Activity)
    ensures ActivityDict(id, a).Keys == {"id", "name", "difficulty"}
    ensures ActivityDict(id, a).Keys !! Timestamps
    ensures "signups" !in ActivityDict(id, a) && "campers" !in ActivityDict(id, a)
  {
  }

  lemma SignupDictFields(id: int, s: Signup)
    ensures SignupDict(id, s).Keys == {"id", "time", "camper_id", "activity_id"}
    ensures SignupDict(id, s).Keys !! Timestamps
    ensures "camper" !in SignupDict(id, s) && "activity" !in SignupDict(id, s)
  {
  }

  /** The default camper dict loses none of the modelled fields: reading it
      back gives the key and the camper. */
  lemma CamperDictRoundTrip(id: int, c: Camper)
    ensures CamperFromDict(CamperDict(id, c)) == Some((id, c))
  {
  }

  /** No `serialize_only` set names a timestamp column. */
  lemma FieldSetsOmitTimestamps()
    ensures ActivityOnly !! Timestamps && CamperOnly !! Timestamps && SignupOnly !! Timestamps
  {
  }

  /** GET /campers never sends a timestamp. */
  lemma CampersListOmitsTimestamps(db: Db)
    ensures var items := GetCampers(db).response.body.items;
      forall i :: 0 <= i < |items| ==> "created_at" !in items[i] && "updated_at" !in items[i]
  {
    var items := GetCampers(db).response.body.items;
    FieldSetsOmitTimestamps();
    forall i | 0 <= i < |items| ensures "created_at" !in items[i] && "updated_at" !in items[i] {
      assert items[i].Keys == CamperOnly;
      assert "created_at" in Timestamps && "updated_at" in Timestamps;
    }
  }

  // ----- POST /campers -----

  lemma PostRejectsAgeOutOfRange(db: Db, fields: map<string, Value>)
    requires "age" in fields && fields["age"].Int?
    requires fields["age"].i < MinAge || MaxAge < fields["age"].i
    ensures PostCamper(db, Object(fields)).response.status == BadRequest
    ensures PostCamper(db, Object(fields)).db == db
  {
  }

  lemma PostRejectsFalsyName(db: Db, fields: map<string, Value>)
    requires "name" in fields && (fields["name"] == Null || fields["name"] == Str(""))
    ensures PostCamper(db, Object(fields)).response.status == BadRequest
    ensures PostCamper(db, Object(fields)).db == db
  {
  }

  lemma PostRejectsUnknownKey(db: Db, fields: map<string, Value>, key: string)
    requires key in fields && key !in Writable
    ensures PostCamper(db, Object(fields)) == Reject(db, BadRequest, KeywordMessage)
  {
  }

  /** Only a refused value reports its validator's message. */
  lemma PostValidatorMessages(db: Db, fields: map<string, Value>)
    requires fields.Keys <= Writable
    ensures "name" in fields && fields["name"] == Str("") ==>
      PostCamper(db, Object(fields)).response.body == ErrorBody(NameMessage)
    ensures GoodName(fields) && "age" in fields && fields["age"].Int? && !(MinAge <= fields["age"].i <= MaxAge) ==>
      PostCamper(db, Object(fields)).response.body == ErrorBody(AgeMessage)
  {
  }

  /** Without a name the validator never runs; it is the non-null column
      that refuses the row, at commit. */
  lemma PostWithoutNameHitsNotNull(db: Db, fields: map<string, Value>)
    requires fields.Keys <= Writable && "name" !in fields && GoodAge(fields)
    ensures Construct(fields).Success? && !Insertable(Construct(fields).value)
    ensures PostCamper(db, Object(fields)) == Reject(db, BadRequest, NotNullMessage)
  {
  }

  /** The age rule runs only on assignment, so a body without age creates a
      camper whose age is null. */
  lemma PostWithoutAge(db: Db, name: string)
    requires name != ""
    ensures var r := PostCamper(db, Object(map["name" := Str(name)]));
      && r.response.status == Created
      && var n := r.response.body.fields["id"].i;
         r.db.campers[n] == Camper(Some(name), None) && r.response.body.fields["age"] == Null
  {
  }

  /** POST {"name": "Alex", "age": 12} answers 201 with the new key, "Alex" and 12. */
  lemma PostExample(db: Db)
    ensures var r := PostCamper(db, Object(map["name" := Str("Alex"), "age" := Int(12)]));
      && r.response.status == Created
      && r.response.body.fields.Keys == {"id", "name", "age"}
      && r.response.body.fields["id"].Int?
      && r.response.body.fields["name"] == Str("Alex")
      && r.response.body.fields["age"] == Int(12)
  {
  }

  /** A created camper is found by GET under the key POST returned, and the
      other campers are untouched. */
  lemma PostThenGet(db: Db, p: Payload)
    requires PostCamper(db, p).response.status == Created
    ensures var r := PostCamper(db, p);
      var n := r.response.body.fields["id"].i;
      && GetCamper(r.db, n).response.status == Ok
      && GetCamper(r.db, n).response.body.fields["name"] == Str(p.fields["name"].s)
      && (forall k :: k in db.campers ==> k in r.db.campers && r.db.campers[k] == db.campers[k])
      && |r.db.campers| == |db.campers| + 1
  {
  }

  // ----- PATCH /campers/{id} -----

  /** A committed PATCH changes only the fields it names, on only that camper. */
  lemma PatchTouchesOnlyGivenKeys(db: Db, id: int, fields: map<string, Value>)
    requires PatchCamper(db, id, Object(fields)).response.status == Ok
    ensures var after := PatchCamper(db, id, Object(fields)).db;
      && after.activities == db.activities
      && after.campers.Keys == db.campers.Keys
      && (forall k :: k in db.campers && k != id ==> after.campers[k] == db.campers[k])
      && ("name" !in fields ==> after.campers[id].name == db.campers[id].name)
      && ("age" !in fields ==> after.campers[id].age == db.campers[id].age)
      && ("name" in fields ==> StrValue(after.campers[id].name) == fields["name"])
      && ("age" in fields ==> IntValue(after.campers[id].age) == fields["age"])
  {
  }

  /** PATCH {"age": 15} on a camper answers 200 with age 15 and the name unchanged. */
  lemma PatchAgeExample(db: Db, id: int)
    requires id in db.campers
    ensures var r := PatchCamper(db, id, Object(map["age" := Int(15)]));
      && r.response.status == Ok
      && r.response.body.fields["age"] == Int(15)
      && r.response.body.fields["name"] == StrValue(db.campers[id].name)
  {
  }

  /** Names a camper does not map are set on the Python object only: PATCH
      behaves as if they were absent. */
  lemma PatchIgnoresUnknownKeys(db: Db, id: int, fields: map<string, Value>)
    ensures PatchCamper(db, id, Object(fields)) ==
            PatchCamper(db, id, Object(map k | k in fields && k in Writable :: fields[k]))
  {
  }

  // ----- DELETE /campers/{id} -----

  /** After a DELETE, whether it removed the camper or found none, GET on the
      same key answers 404. */
  lemma DeleteThenGet(db: Db, id: int)
    ensures GetCamper(DeleteCamper(db, id).db, id).response.status == NotFound
    ensures GetCamper(DeleteCamper(db, id).db, id).response.body == ErrorBody(CamperNotFound)
  {
  }

  // ----- Rejections commit nothing -----

  /** Every error answer of a write leaves the database as it was. */
  lemma RejectionsCommitNothing(db: Db, id: int, p: Payload)
    ensures PostCamper(db, p).response.status != Created ==> PostCamper(db, p).db == db
    ensures PatchCamper(db, id, p).response.status != Ok ==> PatchCamper(db, id, p).db == db
    ensures DeleteCamper(db, id).response.status != NoContent ==> DeleteCamper(db, id).db == db
  {
  }

  /** As written, POST {"name": "A", "to_dict": 0} stores a camper and still answers 400. */
  lemma PostToDictCommitsThenRejects(db: Db)
    ensures var r := PostCamperAsWritten(db, Object(map["name" := Str("A"), "to_dict" := Int(0)]));
      && r.response.status == BadRequest
      && |r.db.campers| == |db.campers| + 1
  {
  }

  /** As written, PATCH {"name": "B", "to_dict": 0} renames the camper and still answers 400. */
  lemma PatchToDictCommitsThenRejects(db: Db, id: int)
    requires id in db.campers
    ensures var r := PatchCamperAsWritten(db, id, Object(map["name" := Str("B"), "to_dict" := Int(0)]));
      && r.response.status == BadRequest
      && r.db.campers[id].name == Some("B")
  {
  }

  // ----- The store invariant -----

  /** Every stored camper passed validation: a named camper aged 8 to 18 or of unknown age. */
  predicate AllValid(db: Db) {
    forall id :: id in db.campers ==> ValidCamper(db.campers[id])
  }

  lemma WritesPreserveValidity(db: Db, id: int, p: Payload)
    requires AllValid(db)
    ensures AllValid(PostCamper(db, p).db)
    ensures AllValid(PatchCamper(db, id, p).db)
    ensures AllValid(DeleteCamper(db, id).db)
  {
  }
}

=== FILE: store.dfy ===
/**
  The database as the handlers see it: one map from primary key to row per
  table, the order in which a query lists rows, and the primary key the
  database gives a new row.
 */
module Store {
  import opened Models

  /** The tables the handlers read and write. */
  datatype Db = Db(activities: map<int, Activity>, campers: map<int, Camper>)

  lemma {:induction false} MinExists(ids: set<int>)
    requires ids != {}
    ensures exists m :: m in ids && forall k :: k in ids ==> m <= k
  {
    assert exists x :: x in ids by {
      if forall x :: x !in ids {
        assert false;
      }
    }
    var x :| x in ids;
    var rest := ids - {x};
    if rest == {} {
      forall k | k in ids ensures x <= k {
        assert k !in rest;
      }
    } else {
      MinExists(rest);
      var m :| m in rest && forall k :: k in rest ==> m <= k;
      var low := if x <= m then x else m;
      forall k | k in ids ensures low <= k {
        if k != x {
          assert k in rest;
        }
      }
      assert low in ids;
    }
  }

  /** The smallest key of a non-empty key set. */
  function Min(ids: set<int>): (m: int)
    requires ids != {}
    ensures m in ids
    ensures forall k :: k in ids ==> m <= k
  {
    MinExists(ids);
    var m :| m in ids && forall k :: k in ids ==> m <= k;
    m
  }

  /** The keys in ascending order, each exactly once. */
  function SortedIds(ids: set<int>): (r: seq<int>)
    ensures |r| == |ids|
    ensures forall i :: 0 <= i < |r| ==> r[i] in ids
    ensures forall k :: k in ids ==> k in r
    ensures forall i, j :: 0 <= i < j < |r| ==> r[i] < r[j]
    decreases ids
  {
    if ids == {} then []
    else
      var m := Min(ids);
      [m] + SortedIds(ids - {m})
  }

  /** The key the database gives a row inserted without one: one more than
      the largest key, or 1 in an empty table. */
  function NextId(ids: set<int>): (n: int)
    ensures n !in ids
    ensures forall k :: k in ids ==> k < n
    ensures ids == {} ==> n == 1
    ensures ids != {} ==> n - 1 in ids
  {
    if ids == {} then 1
    else
      var sorted := SortedIds(ids);
      sorted[|sorted| - 1] + 1
  }

  /** The rows of a table in the order a query lists them: ascending key. */
  function Rows<T>(table: map<int, T>): (rows: seq<(int, T)>)
    ensures |rows| == |table|
    ensures forall i :: 0 <= i < |rows| ==> rows[i].0 in table && rows[i].1 == table[rows[i].0]
    ensures forall id :: id in table ==> (id, table[id]) in rows
    ensures forall i, j :: 0 <= i < j < |rows| ==> rows[i].0 < rows[j].0
  {
    Pair(SortedIds(table.Keys), table)
  }

  /** Each listed key beside its row. */
  function Pair<T>(ids: seq<int>, table: map<int, T>): (rows: seq<(int, T)>)
    requires forall i :: 0 <= i < |ids| ==> ids[i] in table
    ensures |rows| == |ids|
    ensures forall i :: 0 <= i < |rows| ==> rows[i] == (ids[i], table[ids[i]])
  {
    seq(|ids|, i requires 0 <= i < |ids| => (ids[i], table[ids[i]]))
  }
}

=== FILE: wrappers.dfy ===
/** Optional values and results of steps that may raise. */
module Wrappers {

  /** A value that may be absent: a nullable column or an optional field. */
  datatype Option<+T> = None | Some(value: T)

  /** The outcome of a step that may raise: the value, or the error text it raises. */
  datatype Result<+T, +E> = Success(value: T) | Failure(error: E)
}
